=== FILE: README.md ===
# Cinema ticket system: a Dafny model

This project models the core of a console ticket system for a cinema chain. The system
has cinemas. Each cinema has numbered halls with a fixed seating plan. Each hall has
sessions ("movies"), and each session has its own copy of the plan and its own list of
orders. The model covers:

- the hall registry: halls are numbered in order, and a hall number typed by the user is
  checked against the halls that exist;
- the cinema registry: a duplicate cinema name is refused;
- the scheduling rule: the program's equality operator on sessions, used as an overlap
  test when a session is added to a hall;
- the time entry: the two typed times are sorted, so a reversed pair is swapped and equal
  times are kept;
- seat reservation and the ticket-buying dialogue: 1 to 5 seats are reserved one by one,
  and only then is the order (customer, seats, count) recorded;
- the "enough adjacent seats" test: each row is encoded as two-character tokens and
  searched for a substring;
- the cross-cinema session search and the lookup of a hall's sessions by name.

Everything is written with immutable datatypes and pure functions. Each operation
returns a `Result` or `Option` wherever the program refuses something. A time of day is
a whole number of minutes since midnight. A seat cell is `Free` or `Reserved`. In the
program a free cell holds its column label and a reserved cell holds `" ."`. No label is
ever `" ."`, so the two views match.

Modules, one file each:

- `wrappers.dfy` holds `Wrappers`.
- `seating.dfy` holds `Seating`: plans, `Reserve`, and the seat-picking loop.
- `freeruns.dfy` holds `FreeRuns`: the adjacent-seats test.
- `sessions.dfy` holds `Sessions`: times, the conflict test, and buying.
- `venues.dfy` holds `Venues`: halls, cinemas, scheduling, and lookup.
- `catalogs.dfy` holds `Catalogs`: the cinema registry and the search.

Where the code differs from its evident intent, the model follows the code:

- **Operand roles in the conflict test.** The hall evaluates `film == movie`, which makes
  the existing session the left operand (`self`). Read with the candidate in that role,
  as the test "does the candidate start or end inside an existing session" suggests,
  the first disjunct would be `existing.start <= candidate.start < existing.end`. The
  code's first disjunct is `candidate.start <= existing.start < candidate.end`.
- **Session times.** A session whose end is before its start is not refused: the times
  are swapped. Equal times are accepted, which gives a zero-length session.
- **Zero in the search.** Asking the search for 0 adjacent seats is the same as asking
  for 1. It is not "no filter", so a session with every seat reserved is not listed.
- **Touching sessions.** They never conflict, except that a zero-length session at
  12:00 still blocks a candidate 12:00–13:00
  (`Sessions.ZeroLengthBlocksTouching`).

Scheduling takes a `Venues.Rule`. `AsWritten` is the program's test (`Sessions.Conflicts`).
`Intended` is the corrected one (`Sessions.Overlaps`), explained under Findings.

## Model

| member | source | states |
|---|---|---|
| Seating.MakePlan | ticket_system.py:59 | a new plan has exactly n rows of m seats and every seat is free |
| Seating.Reserve | ticket_system.py:153-167 | a seat is taken iff both coordinates are positive, it lies in the plan and it is free; then exactly that cell becomes reserved and every other cell and the shape are unchanged; a reserved seat is refused as busy, anything else as a bad seat |
| Seating.ReserveTwiceFails | ticket_system.py:157-158 | once a seat has been reserved, asking for it again is refused as busy |
| Seating.TakeSeats | ticket_system.py:146-167 | the seat-choosing loop grants at most the requested number of seats, all distinct, all taken from the operator's attempts, each free before and reserved after; no other cell changes and the shape is kept |
| Seating.TakeSeatsInOrder | ticket_system.py:146-162 | the seats granted form a subsequence of the typed seats: they are never reordered; `TakeSeatsIsFirstFree` says which ones they are |
| Seating.FirstFree | ticket_system.py:151-162 | reference list, defined without the loop: the typed seats free in the plan, in typed order, each at its first occurrence; its members are exactly the different free seats typed |
| Seating.FirstFreeAfterReserve | ticket_system.py:157-161 | reserving a seat removes exactly that seat from the reference list of free seats typed |
| Seating.TakeSeatsIsFirstFree | ticket_system.py:146-167 | the loop grants exactly the first `need` entries of the reference list, or the whole list when it is shorter |
| Seating.TakeSeatsRetries | ticket_system.py:151-167 | a refused seat is asked again instead of ending the order: if fewer seats than requested were granted, every typed seat that was free has been granted |
| Seating.TakeSeatsCount | ticket_system.py:146-167 | the loop grants the requested number of seats when at least that many different free seats were typed, and otherwise exactly as many different free seats as were typed |
| Seating.TakeSeatsGrantsFreeSeats | ticket_system.py:146-165 | when the first typed seats are distinct and free, exactly those seats are granted, in the order typed |
| FreeRuns.Token | ticket_system.py:443 | each seat is written as a two-character token |
| FreeRuns.EncodeRow | ticket_system.py:443 | a row's encoding has two characters per seat; `EncodeRowAt` gives each character |
| FreeRuns.Repeat | ticket_system.py:444 | the pattern repeated k times has k times its length; `RepeatAt` gives each character |
| FreeRuns.Occurs | ticket_system.py:444 | the substring test `pattern in text`, as a match at some offset; `RowSearchIsFreeRun` relates it to free seats |
| FreeRuns.EnoughPlaces | ticket_system.py:441-447 | the early-exit row scan of the adjacent-seats test; `EnoughPlacesScansRows` and `EnoughPlacesIff` characterise it |
| FreeRuns.EnoughPlacesScansRows | ticket_system.py:441-447 | the scan succeeds iff the encoding of some row contains the pattern |
| FreeRuns.EncodeRowAt | ticket_system.py:443 | character p of a row's encoding is character p mod 2 of the token of seat p / 2 |
| FreeRuns.RepeatAt | ticket_system.py:444 | the repeated pattern has '+' at even and '-' at odd positions |
| FreeRuns.RunGivesMatch | ticket_system.py:443-444 | k adjacent free seats starting at seat j give a substring match at offset 2j |
| FreeRuns.MatchGivesRun | ticket_system.py:443-444 | a match of a non-empty pattern starts at an even offset, never inside a token, and covers k free seats |
| FreeRuns.RowSearchIsFreeRun | ticket_system.py:442-445 | the token search on a row succeeds iff the row has k consecutive free seats |
| FreeRuns.EnoughPlacesIff | ticket_system.py:441-447 | the plan passes the adjacent-seats test iff some row has k consecutive free seats |
| FreeRuns.EnoughPlacesMonotone | ticket_system.py:441-447 | a plan that passes the test for k also passes it for k - 1 |
| FreeRuns.FreshPlanHasPlaces | ticket_system.py:441-447 | an untouched plan passes the test for any block no longer than a row |
| FreeRuns.ExampleRow | ticket_system.py:441-447 | the row free, free, reserved, free, free, free passes for 3 seats but not for 4 |
| Sessions.NewSession | ticket_system.py:103-132 | a new session has its start no later than its end, the two typed times in some order, the hall's plan as its grid and no orders |
| Sessions.Conflicts | ticket_system.py:115-118 | the program's equality operator on sessions, with the existing session as left operand; its partners `ConflictsVersusOverlaps`, `SharedEndAsymmetry` and `ZeroLengthBlocksTouching` relate it to real overlap |
| Sessions.TouchingNeverConflicts | ticket_system.py:115-118 | a session ending no later than another starts conflicts with it in neither operand order, unless it has zero length and sits exactly at the other's start |
| Sessions.ZeroLengthBlocksTouching | ticket_system.py:115-118 | a zero-length existing session at the candidate's start conflicts with it although they share no minute |
| Sessions.SelfConflict | ticket_system.py:115-118 | a session conflicts with an identical one iff it has non-zero length |
| Sessions.StartsDuringCandidate | ticket_system.py:116 | an existing session that starts during the candidate always conflicts |
| Sessions.SharedEndAsymmetry | ticket_system.py:115-118 | for s1 < s2 < e, an existing [s1, e] does not block a candidate [s2, e], while an existing [s2, e] blocks a candidate [s1, e], although the two overlap |
| Sessions.ConflictsVersusOverlaps | ticket_system.py:115-118 | for non-zero-length sessions the program's test equals real overlap except when the existing session starts earlier and ends at the same minute |
| Sessions.OverlapsSymmetric | ticket_system.py:115-118 | the intended overlap test does not depend on operand order |
| Sessions.OverlapsIffSharedMinute | ticket_system.py:115-118 | the intended test holds iff some minute lies during both sessions |
| Sessions.BuyTickets | ticket_system.py:139-171 | a count outside 1..5 is refused; the purchase succeeds iff the count is 1..5 and at least that many different free seats were typed, and otherwise the input runs out with no order recorded; the order holds exactly the first `count` different free seats typed, in the order typed; on success one order is appended with the customer, count = number of seats = the count asked, distinct seats that were free and are now reserved, and nothing else changes |
| Sessions.RetryAfterRefusal | ticket_system.py:152-167 | a busy seat and an out-of-plan seat typed first are skipped and the free seat typed after them is bought |
| Sessions.BuyFreeSeats | ticket_system.py:139-171 | typing 1 to 5 distinct free seats buys exactly those seats as one order |
| Sessions.NewSessionConsistent | ticket_system.py:103-113 | a new session of an untouched plan is consistent: no reservation without an order and no order without its reservations |
| Sessions.BuyPreservesConsistent | ticket_system.py:139-171 | after buying, every order is well formed, no seat is in two orders, and a seat is reserved iff some order holds it |
| Sessions.BuyOnlyReserves | ticket_system.py:157-160 | buying never frees a seat and never changes the plan's shape |
| Venues.AddHall | ticket_system.py:29-59 | a plan outside 1..15 x 1..30 is refused; otherwise a hall numbered one more than the halls present is appended, with a free plan of that size and no sessions; earlier halls are untouched and 1-based numbering is kept |
| Venues.CheckHall | ticket_system.py:327-336 | exactly the numbers 1 .. number of halls are accepted, giving the position of the hall with that number |
| Venues.Clash | ticket_system.py:85-86 | which test decides a clash: the program's operator or the intended overlap test |
| Venues.FirstClash | ticket_system.py:85-88 | the scan finds the first existing session that clashes with the candidate, or reports that none does |
| Venues.AddMovie | ticket_system.py:84-91 | the candidate is refused iff some existing session clashes with it, and the first clashing session is reported while the hall is unchanged; otherwise it is appended to the hall's sessions |
| Venues.AddMovieKeepsScheduled | ticket_system.py:84-91 | with the program's test, no session conflicts with any session that was there before it |
| Venues.AddMovieKeepsDisjoint | ticket_system.py:84-91 | with the intended test, no two sessions of a hall share a minute |
| Venues.AsWrittenAdmitsOverlap | ticket_system.py:84-91 | with 11:00-13:00 scheduled, the program's test accepts 12:00-13:00 and leaves two overlapping sessions; the intended test refuses it |
| Venues.ScheduleMovie | ticket_system.py:241-242 | a new session of the hall gets its own copy of the hall's plan and sorted times; it is refused iff some existing session clashes with it, reporting the first such session, and otherwise appended |
| Venues.MatchingIndices | ticket_system.py:93-97 | the positions of exactly the sessions with the given name, in increasing order |
| Venues.GetMovie | ticket_system.py:93-99 | the hall's sessions with that name in the hall's order, or None iff there is none |
| Venues.BuyInHall | ticket_system.py:103-108 | buying for one session of a hall changes only that session; the hall's plan and every other session stay as they were |
| Venues.AddHallOk | ticket_system.py:44-59 | a new hall has a valid, all-free plan |
| Venues.ScheduleMovieOk | ticket_system.py:103-113 | adding a session keeps the hall's plan all free and every session's grid of the plan's shape and consistent |
| Venues.BuyInHallOk | ticket_system.py:139-171 | buying keeps the hall in good order; in particular the hall's plan stays all free |
| Venues.Walkthrough | ticket_system.py:465-521 | back-to-back sessions in a 4 x 4 hall are both accepted; a 4-seat order gives count 4; the same seat is then busy in that session but free in the other |
| Catalogs.FindIn | ticket_system.py:316-324 | the position of the first cinema with the name, or None iff no cinema has it |
| Catalogs.FindCinema | ticket_system.py:315-324 | the cinema lookup finds a cinema with the name iff one exists, and it is the only one when names are unique |
| Catalogs.AddCinema | ticket_system.py:218-226 | a name already in use is refused; otherwise a cinema with no halls is appended, found by name afterwards, and names stay unique |
| Catalogs.CinemaEntries | ticket_system.py:419-420 | a cinema's sessions are enumerated hall by hall with their positions, each exactly once, in scan order |
| Catalogs.CatalogEntries | ticket_system.py:418-420 | the whole registry is enumerated with valid positions, each session exactly once, in cinema, hall, session order |
| Catalogs.SortedByMembership | ticket_system.py:418-426 | two lists in scan order with the same members are equal, so the search result is determined by which sessions qualify |
| Catalogs.BlockSize | ticket_system.py:414 | a requested block of 0 seats becomes 1; any other size is kept |
| Catalogs.Filter | ticket_system.py:420-426 | exactly the entries that pass the test, keeping scan order |
| Catalogs.CheckMovie | ticket_system.py:413-433 | a non-empty result is in scan order and lists only sessions with the name that pass the adjacent-seats test |
| Catalogs.CheckMovieCorrect | ticket_system.py:413-433 | "not showing" iff no session has the name; "none suitable" iff one does but none has a row with the block of free seats; otherwise exactly the qualifying sessions, in scan order |
| Catalogs.CheckMovieZeroIsOne | ticket_system.py:414 | searching for 0 adjacent seats is the same search as for 1 |

## Left out

- Console input and output are not modelled. That covers every `input()`/`print` loop,
  the coloured messages, the plan printing, the help text and the order listing.
  The operator's answers become parameters: plan size, ticket count, typed seats,
  customer name and search size.
- A re-prompt loop for one value is modelled as an error result, because the model has
  no input to ask again. This covers the plan size (`InvalidDimensions`) and the ticket
  count (`BadCount`). A refused seat is different: the seat loop goes on to the next
  typed seat, as the program asks again.
- The search size is any natural number in the model. The program re-prompts until it
  gets 0 to 5, so it only ever passes those values.
- The ticket dialogue can run out of typed seats. The program would then stop on
  end-of-input, so the model returns `InputExhausted` and keeps no state.
- Command parsing in `main` and the command table are not modelled. Neither is the
  dispatch that looks up a cinema and hall and then updates them; each lookup and
  each update is modelled on its own.
- Choosing among same-named sessions of one hall is not modelled. `GetMovie` returns
  the candidates, and `BuyInHall` takes the chosen position.
- Report and leaflet generation are not modelled, nor their file counters. They write
  files through foreign document libraries.
- Parsing "hh mm" into a time is not modelled, and seconds are ignored. Times are
  minutes since midnight.
- The session's serial number `Movie.num` is not modelled. It is only displayed.
- The back-references from a session to its hall and from a hall to its cinema are not
  modelled. Position in the enclosing sequence replaces them.
- The hall number and search size arrive as text in the program. The model takes them
  as integers.
- Sessions.TouchingNeverConflicts: excludes a zero-length session sitting exactly at the
  other's start, because that one does conflict with it (`Sessions.ZeroLengthBlocksTouching`).
- Sessions.ConflictsVersusOverlaps: stated only for sessions of non-zero length. The
  zero-length cases are pinned down separately by `ZeroLengthBlocksTouching` and
  `SelfConflict`.

## Findings

| source | as written | input that shows it | evidently intended | confidence | as-written member | corrected member |
|---|---|---|---|---|---|---|
| ticket_system.py:115-118 | the overlap test, called as `existing == candidate`, misses an existing session that starts earlier and ends at the same minute as the candidate | hall holds 11:00-13:00; adding 12:00-13:00 is accepted, so two sessions share 12:00-13:00 | a session is refused whenever it shares a minute with a session of the hall, whichever was added first | high; not executed | Venues.AsWrittenAdmitsOverlap | Venues.AddMovieKeepsDisjoint |

=== FILE: catalogs.dfy ===
/**
 * The registry of cinemas and the cross-cinema session search.
 *
 * The program keeps its cinemas in a dictionary keyed by name, which keeps
 * insertion order; here it is a sequence of cinemas whose names are unique.
 * A position in the registry is a `Slot` (cinema, hall, session), each
 * 0-based; scanning cinemas, then halls, then sessions, visits the slots in
 * lexicographic order.
 */
module Catalogs {
  import opened Wrappers
  import opened FreeRuns
  import opened Sessions
  import opened Venues

  datatype Catalog = Catalog(cinemas: seq<Cinema>)

  predicate UniqueNames(cat: Catalog) {
    forall i, j :: 0 <= i < j < |cat.cinemas| ==> cat.cinemas[i].name != cat.cinemas[j].name
  }

  /** The position of the first cinema called `name` in `cs`. */
  function FindIn(cs: seq<Cinema>, name: string): (r: Option<nat>)
    ensures r.None? <==> forall i :: 0 <= i < |cs| ==> cs[i].name != name
    ensures r.Some? ==> r.value < |cs| && cs[r.value].name == name
    ensures r.Some? ==> forall i :: 0 <= i < r.value ==> cs[i].name != name
  {
    if cs == [] then None
    else if cs[0].name == name then Some(0)
    else match FindIn(cs[1..], name)
      case None => None
      case Some(i) => Some(i + 1)
  }

  /** Cinema lookup by name; with unique names the cinema found is the only one so called. */
  function FindCinema(cat: Catalog, name: string): (r: Option<nat>)
    ensures r.None? <==> forall i :: 0 <= i < |cat.cinemas| ==> cat.cinemas[i].name != name
    ensures r.Some? ==> r.value < |cat.cinemas| && cat.cinemas[r.value].name == name
    ensures r.Some? && UniqueNames(cat) ==>
              forall i :: 0 <= i < |cat.cinemas| && cat.cinemas[i].name == name ==> i == r.value
  {
    FindIn(cat.cinemas, name)
  }

  datatype CatalogError = DuplicateCinema

  /** Registering a cinema: a name already in use is refused; otherwise a cinema with no halls is appended. */
  function AddCinema(cat: Catalog, name: string): (r: Result<Catalog, CatalogError>)
    ensures r.Err? <==> exists i :: 0 <= i < |cat.cinemas| && cat.cinemas[i].name == name
    ensures r.Ok? ==> r.value.cinemas == cat.cinemas + [Cinema(name, [])]
    ensures r.Ok? ==> FindCinema(r.value, name) == Some(|cat.cinemas|)
    ensures r.Ok? && UniqueNames(cat) ==> UniqueNames(r.value)
  {
    match FindCinema(cat, name)
    case Some(_) => Err(DuplicateCinema)
    case None =>
      var cs := cat.cinemas + [Cinema(name, [])];
      assert forall i :: 0 <= i < |cat.cinemas| ==> cs[i].name != name;
      assert cs[|cat.cinemas|].name == name;
      Ok(Catalog(cs))
  }

  // ---------------------------------------------------------------------------
  // Enumerating every session of the registry in scan order
  // ---------------------------------------------------------------------------

  /** A position in the registry: cinema, hall and session, each 0-based. */
  datatype Slot = Slot(cinema: nat, hall: nat, movie: nat)

  /** A session together with its position. */
  datatype Entry = Entry(slot: Slot, session: Session)

  predicate ValidSlot(cs: seq<Cinema>, s: Slot) {
    s.cinema < |cs| && s.hall < |cs[s.cinema].halls| && s.movie < |cs[s.cinema].halls[s.hall].movies|
  }

  function SessionAt(cs: seq<Cinema>, s: Slot): Session
    requires ValidSlot(cs, s)
  {
    cs[s.cinema].halls[s.hall].movies[s.movie]
  }

  /** Lexicographic order of positions: the order of the nested scan. */
  predicate Before(a: Slot, b: Slot) {
    || a.cinema < b.cinema
    || (a.cinema == b.cinema && a.hall < b.hall)
    || (a.cinema == b.cinema && a.hall == b.hall && a.movie < b.movie)
  }

  predicate Sorted(es: seq<Entry>) {
    forall i, j :: 0 <= i < j < |es| ==> Before(es[i].slot, es[j].slot)
  }

  lemma SortedConcat(xs: seq<Entry>, ys: seq<Entry>)
    requires Sorted(xs) && Sorted(ys)
    requires forall x, y :: x in xs && y in ys ==> Before(x.slot, y.slot)
    ensures Sorted(xs + ys)
  {
    forall i, j | 0 <= i < j < |xs + ys|
      ensures Before((xs + ys)[i].slot, (xs + ys)[j].slot)
    {
      if j < |xs| {
        assert (xs + ys)[i] == xs[i] && (xs + ys)[j] == xs[j];
      } else if i < |xs| {
        assert (xs + ys)[i] == xs[i] && (xs + ys)[j] == ys[j - |xs|];
        assert xs[i] in xs && ys[j - |xs|] in ys;
      } else {
        assert (xs + ys)[i] == ys[i - |xs|] && (xs + ys)[j] == ys[j - |xs|];
      }
    }
  }

  /** The sessions of one hall with their positions. */
  function HallEntries(ci: nat, hi: nat, movies: seq<Session>): (es: seq<Entry>)
    ensures |es| == |movies|
    ensures forall k :: 0 <= k < |es| ==> es[k] == Entry(Slot(ci, hi, k), movies[k])
  {
    seq(|movies|, k requires 0 <= k < |movies| => Entry(Slot(ci, hi, k), movies[k]))
  }

  /** The sessions of cinema `ci`, hall by hall. */
  function CinemaEntries(ci: nat, halls: seq<Hall>): (es: seq<Entry>)
    ensures forall e :: e in es ==>
              && e.slot.cinema == ci && e.slot.hall < |halls|
              && e.slot.movie < |halls[e.slot.hall].movies|
              && e.session == halls[e.slot.hall].movies[e.slot.movie]
    ensures forall hi, mi :: 0 <= hi < |halls| && 0 <= mi < |halls[hi].movies| ==>
              Entry(Slot(ci, hi, mi), halls[hi].movies[mi]) in es
    ensures Sorted(es)
  {
    if halls == [] then []
    else
      var n := |halls| - 1;
      var pre := CinemaEntries(ci, halls[..n]);
      var last := HallEntries(ci, n, halls[n].movies);
      assert forall hi :: 0 <= hi < n ==> halls[..n][hi] == halls[hi];
      SortedConcat(pre, last);
      var es := pre + last;
      assert forall hi, mi :: 0 <= hi < n && 0 <= mi < |halls[hi].movies| ==>
               Entry(Slot(ci, hi, mi), halls[hi].movies[mi]) in pre;
      assert forall mi :: 0 <= mi < |halls[n].movies| ==> last[mi] == Entry(Slot(ci, n, mi), halls[n].movies[mi]);
      es
  }

  /** Every session of the registry with its position, in the program's scan order. */
  function CatalogEntries(cs: seq<Cinema>): (es: seq<Entry>)
    ensures forall e :: e in es ==> ValidSlot(cs, e.slot) && e.session == SessionAt(cs, e.slot)
    ensures forall s :: ValidSlot(cs, s) ==> Entry(s, SessionAt(cs, s)) in es
    ensures Sorted(es)
  {
    if cs == [] then []
    else
      var n := |cs| - 1;
      var pre := CatalogEntries(cs[..n]);
      var last := CinemaEntries(n, cs[n].halls);
      assert forall ci :: 0 <= ci < n ==> cs[..n][ci] == cs[ci];
      assert forall s :: ValidSlot(cs[..n], s) ==> ValidSlot(cs, s) && SessionAt(cs[..n], s) == SessionAt(cs, s);
      SortedConcat(pre, last);
      assert forall s :: ValidSlot(cs, s) && s.cinema < n ==> ValidSlot(cs[..n], s);
      assert forall s :: ValidSlot(cs, s) && s.cinema == n ==>
               Entry(Slot(n, s.hall, s.movie), cs[n].halls[s.hall].movies[s.movie]) in last;
      pre + last
  }

  /** The entries satisfying `p`, in their original order. */
  function Filter(es: seq<Entry>, p: Entry -> bool): (r: seq<Entry>)
    ensures forall e :: e in r <==> e in es && p(e)
    ensures Sorted(es) ==> Sorted(r)
  {
    if es == [] then []
    else
      var n := |es| - 1;
      var pre := Filter(es[..n], p);
      assert forall e :: e in es <==> e in es[..n] || e == es[n];
      if p(es[n]) then
        assert Sorted(es) ==> forall x :: x in es[..n] ==> Before(x.slot, es[n].slot);
        pre + [es[n]]
      else pre
  }

  /** Two lists with the same members are empty together. */
  lemma EmptyTogether(a: seq<Entry>, b: seq<Entry>)
    requires forall e :: e in a <==> e in b
    ensures a == [] <==> b == []
  {
    if a != [] {
      assert a[0] in b;
    }
    if b != [] {
      assert b[0] in a;
    }
  }

  /**
   * Two sorted lists of entries with the same members are equal: the
   * membership and the scan order together determine the search result.
   */
  lemma {:induction false} SortedByMembership(a: seq<Entry>, b: seq<Entry>)
    requires Sorted(a) && Sorted(b)
    requires forall e :: e in a <==> e in b
    ensures a == b
    decreases |a|
  {
    EmptyTogether(a, b);
    if a != [] {
      assert a[0] in a && b[0] in b;
      var i :| 0 <= i < |a| && a[i] == b[0];
      var j :| 0 <= j < |b| && b[j] == a[0];
      if i != 0 && j != 0 {
        assert false;
      }
      forall e | e in a[1..]
        ensures e in b[1..]
      {
        var i :| 1 <= i < |a| && a[i] == e;
        assert Before(a[0].slot, e.slot);
        assert e in b;
        var j :| 0 <= j < |b| && b[j] == e;
        assert j != 0;
      }
      forall e | e in b[1..]
        ensures e in a[1..]
      {
        var j :| 1 <= j < |b| && b[j] == e;
        assert Before(b[0].slot, e.slot);
        assert e in a;
        var i :| 0 <= i < |a| && a[i] == e;
        assert i != 0;
      }
      SortedByMembership(a[1..], b[1..]);
      assert a == [a[0]] + a[1..];
      assert b == [b[0]] + b[1..];
    }
  }

  // ---------------------------------------------------------------------------
  // The session search
  // ---------------------------------------------------------------------------

  datatype QueryOutcome =
    | NotShowing                   // no session anywhere has the name
    | NoSuitable                   // sessions of that name exist, none has the seats
    | Found(matches: seq<Entry>)   // the qualifying sessions, in scan order

  /** The block size the search uses: asking for 0 adjacent seats means 1. */
  function BlockSize(number: nat): (k: nat)
    ensures number == 0 ==> k == 1
    ensures number > 0 ==> k == number
  {
    if number == 0 then 1 else number
  }

  /**
   * The session search: scan every cinema, hall and session in order, keep
   * the sessions called `name` whose plan passes the adjacent-seats test,
   * and tell "no such session anywhere" apart from "none with the seats".
   */
  function CheckMovie(cat: Catalog, name: string, number: nat): (r: QueryOutcome)
    ensures r.Found? ==>
              && |r.matches| > 0 && Sorted(r.matches)
              && forall e :: e in r.matches ==> e.session.name == name && EnoughPlaces(e.session.grid, BlockSize(number))
  {
    var k := BlockSize(number);
    var named := Filter(CatalogEntries(cat.cinemas), (e: Entry) => e.session.name == name);
    if named == [] then NotShowing
    else
      var suitable := Filter(named, (e: Entry) => EnoughPlaces(e.session.grid, k));
      if suitable == [] then NoSuitable else Found(suitable)
  }

  /** The session called `name` at slot `s` has a row with `k` adjacent free seats. */
  ghost predicate Qualifies(cs: seq<Cinema>, s: Slot, name: string, k: nat)
    requires ValidSlot(cs, s)
  {
    SessionAt(cs, s).name == name && GridHasFreeRun(SessionAt(cs, s).grid, k)
  }

  /**
   * The search, stated without the scan: "not showing" iff no session has
   * the name; "no suitable" iff some session has it but none of those has a
   * row with the requested block of free seats; otherwise the result lists
   * exactly the qualifying sessions, in cinema, hall, session order.
   */
  lemma CheckMovieCorrect(cat: Catalog, name: string, number: nat)
    ensures var cs, k := cat.cinemas, BlockSize(number);
            CheckMovie(cat, name, number) == NotShowing <==>
              forall s :: ValidSlot(cs, s) ==> SessionAt(cs, s).name != name
    ensures var cs, k := cat.cinemas, BlockSize(number);
            CheckMovie(cat, name, number) == NoSuitable <==>
              && (exists s :: ValidSlot(cs, s) && SessionAt(cs, s).name == name)
              && forall s :: ValidSlot(cs, s) ==> !Qualifies(cs, s, name, k)
    ensures var cs, k := cat.cinemas, BlockSize(number);
            var r := CheckMovie(cat, name, number);
            r.Found? ==>
              && Sorted(r.matches)
              && forall e :: e in r.matches <==>
                   ValidSlot(cs, e.slot) && e.session == SessionAt(cs, e.slot) && Qualifies(cs, e.slot, name, k)
  {
    var cs, k := cat.cinemas, BlockSize(number);
    var all := CatalogEntries(cs);
    var named := Filter(all, (e: Entry) => e.session.name == name);
    var suitable := Filter(named, (e: Entry) => EnoughPlaces(e.session.grid, k));
    forall e | e in all
      ensures EnoughPlaces(e.session.grid, k) <==> GridHasFreeRun(e.session.grid, k)
    {
      EnoughPlacesIff(e.session.grid, k);
    }
    if named == [] {
      forall s | ValidSlot(cs, s)
        ensures SessionAt(cs, s).name != name
      {
        assert Entry(s, SessionAt(cs, s)) in all;
      }
    } else {
      var e0 := named[0];
      assert e0 in named;
      assert ValidSlot(cs, e0.slot) && SessionAt(cs, e0.slot).name == name;
    }
    if suitable == [] {
      forall s | ValidSlot(cs, s)
        ensures !Qualifies(cs, s, name, k)
      {
        assert Entry(s, SessionAt(cs, s)) in all;
      }
    } else {
      var e1 := suitable[0];
      assert e1 in suitable;
      assert ValidSlot(cs, e1.slot) && Qualifies(cs, e1.slot, name, k);
    }
    forall e: Entry
      ensures e in suitable <==> ValidSlot(cs, e.slot) && e.session == SessionAt(cs, e.slot) && Qualifies(cs, e.slot, name, k)
    {
      if ValidSlot(cs, e.slot) && e.session == SessionAt(cs, e.slot) {
        assert Entry(e.slot, SessionAt(cs, e.slot)) in all;
      }
    }
  }

  /** Asking for 0 adjacent seats is the same search as asking for 1. */
  lemma CheckMovieZeroIsOne(cat: Catalog, name: string)
    ensures CheckMovie(cat, name, 0) == CheckMovie(cat, name, 1)
  {
  }
}

=== FILE: freeruns.dfy ===
/**
 * The "enough adjacent seats" test of the session search.
 *
 * The program encodes each row of a session's plan as text, one two-character
 * token per seat ("+-" for a free seat, " ." for a reserved one), and asks
 * whether `number` copies of "+-" occur as a substring. This module models that
 * encoding and substring test literally, and proves it equal to the plain
 * statement "some row has `number` consecutive free seats".
 */
module FreeRuns {
  import opened Seating

  /** The token written for one seat. */
  function Token(c: Cell): (t: string)
    ensures |t| == 2
  {
    if c == Reserved then " ." else "+-"
  }

  /** A row joined into one string of tokens. */
  function EncodeRow(row: seq<Cell>): (s: string)
    ensures |s| == 2 * |row|
  {
    if row == [] then "" else Token(row[0]) + EncodeRow(row[1..])
  }

  /** `pat` repeated `k` times (the string product `pat * k`). */
  function Repeat(pat: string, k: nat): (s: string)
    ensures |s| == |pat| * k
  {
    if k == 0 then "" else pat + Repeat(pat, k - 1)
  }

  /** `pat` occurs in `s` starting at offset `i`. */
  predicate MatchAt(pat: string, s: string, i: int) {
    0 <= i <= |s| - |pat| && s[i..i + |pat|] == pat
  }

  /** Substring test: `pat in s`. */
  predicate Occurs(pat: string, s: string) {
    exists i :: 0 <= i <= |s| - |pat| && MatchAt(pat, s, i)
  }

  /** The row scan: true as soon as one row's encoding contains the pattern. */
  function EnoughPlaces(plan: Grid, number: nat): bool {
    if plan == [] then false
    else if Occurs(Repeat("+-", number), EncodeRow(plan[0])) then true
    else EnoughPlaces(plan[1..], number)
  }

  /** The early-exit scan answers whether any row's encoding contains the pattern. */
  lemma {:induction false} EnoughPlacesScansRows(plan: Grid, number: nat)
    ensures EnoughPlaces(plan, number) <==>
              exists r :: 0 <= r < |plan| && Occurs(Repeat("+-", number), EncodeRow(plan[r]))
  {
    if plan != [] {
      EnoughPlacesScansRows(plan[1..], number);
      assert forall r :: 1 <= r < |plan| ==> plan[r] == plan[1..][r - 1];
    }
  }

  /** Seats j, j+1, …, j+k-1 of the row exist and are all free. */
  predicate RunAt(row: seq<Cell>, j: int, k: nat) {
    0 <= j && j + k <= |row| && forall c :: j <= c < j + k ==> row[c] == Free
  }

  /** The row has `k` consecutive free seats. */
  ghost predicate HasFreeRun(row: seq<Cell>, k: nat) {
    exists j :: RunAt(row, j, k)
  }

  /** Some row of the plan has `k` consecutive free seats. */
  ghost predicate GridHasFreeRun(plan: Grid, k: nat) {
    exists r :: 0 <= r < |plan| && HasFreeRun(plan[r], k)
  }

  /** Character `p` of an encoded row is character `p % 2` of the token of seat `p / 2`. */
  lemma {:induction false} EncodeRowAt(row: seq<Cell>, p: int)
    requires 0 <= p < 2 * |row|
    ensures EncodeRow(row)[p] == Token(row[p / 2])[p % 2]
    decreases |row|
  {
    if p >= 2 {
      EncodeRowAt(row[1..], p - 2);
      assert (p - 2) / 2 == p / 2 - 1;
      assert (p - 2) % 2 == p % 2;
    }
  }

  /** Character `p` of "+-" repeated is '+' at even and '-' at odd positions. */
  lemma {:induction false} RepeatAt(k: nat, p: int)
    requires 0 <= p < 2 * k
    ensures Repeat("+-", k)[p] == (if p % 2 == 0 then '+' else '-')
  {
    if p >= 2 {
      RepeatAt(k - 1, p - 2);
      assert (p - 2) % 2 == p % 2;
    }
  }

  /** A run of `k` free seats starting at seat `j` is a match of the pattern at offset 2j. */
  lemma RunGivesMatch(row: seq<Cell>, j: int, k: nat)
    requires RunAt(row, j, k)
    ensures MatchAt(Repeat("+-", k), EncodeRow(row), 2 * j)
  {
    var s, pat := EncodeRow(row), Repeat("+-", k);
    forall p | 0 <= p < 2 * k
      ensures s[2 * j .. 2 * j + 2 * k][p] == pat[p]
    {
      EncodeRowAt(row, 2 * j + p);
      RepeatAt(k, p);
      assert (2 * j + p) / 2 == j + p / 2;
      assert (2 * j + p) % 2 == p % 2;
      assert row[j + p / 2] == Free;
    }
    assert s[2 * j .. 2 * j + |pat|] == pat;
  }

  /**
   * A match of a non-empty pattern starts at an even offset, because every odd
   * position of an encoded row holds '-' or '.', never '+'; the match at offset
   * `i` then covers seats i/2 … i/2+k-1, which must all be free.
   */
  lemma MatchGivesRun(row: seq<Cell>, i: int, k: nat)
    requires k > 0 && MatchAt(Repeat("+-", k), EncodeRow(row), i)
    ensures i % 2 == 0 && RunAt(row, i / 2, k)
  {
    var s, pat := EncodeRow(row), Repeat("+-", k);
    assert |pat| == 2 * k && s[i..i + |pat|] == pat;
    assert s[i] == s[i..i + |pat|][0] == pat[0];
    RepeatAt(k, 0);
    EncodeRowAt(row, i);
    var j := i / 2;
    forall c | j <= c < j + k
      ensures row[c] == Free
    {
      var p := 2 * (c - j);
      assert s[i + p] == s[i..i + |pat|][p] == pat[p];
      RepeatAt(k, p);
      EncodeRowAt(row, i + p);
      assert (i + p) / 2 == c;
    }
  }

  /** The token search on one row is exactly the free-run question. */
  lemma RowSearchIsFreeRun(row: seq<Cell>, k: nat)
    ensures Occurs(Repeat("+-", k), EncodeRow(row)) <==> HasFreeRun(row, k)
  {
    var s, pat := EncodeRow(row), Repeat("+-", k);
    if HasFreeRun(row, k) {
      var j :| RunAt(row, j, k);
      RunGivesMatch(row, j, k);
    }
    if Occurs(pat, s) && k > 0 {
      var i :| 0 <= i <= |s| - |pat| && MatchAt(pat, s, i);
      MatchGivesRun(row, i, k);
    }
    if k == 0 {
      assert RunAt(row, 0, 0);
      assert MatchAt(pat, s, 0);
    }
  }

  /** `there_are_enough_places(plan, k)` holds iff some row has `k` consecutive free seats. */
  lemma {:induction false} EnoughPlacesIff(plan: Grid, k: nat)
    ensures EnoughPlaces(plan, k) <==> GridHasFreeRun(plan, k)
  {
    if plan != [] {
      RowSearchIsFreeRun(plan[0], k);
      EnoughPlacesIff(plan[1..], k);
      if GridHasFreeRun(plan, k) && !HasFreeRun(plan[0], k) {
        var r :| 0 <= r < |plan| && HasFreeRun(plan[r], k);
        assert plan[1..][r - 1] == plan[r];
      }
      if GridHasFreeRun(plan[1..], k) {
        var r :| 0 <= r < |plan[1..]| && HasFreeRun(plan[1..][r], k);
        assert plan[r + 1] == plan[1..][r];
      }
      if HasFreeRun(plan[0], k) {
        assert 0 < |plan| && HasFreeRun(plan[0], k);
      }
    }
  }

  /** A plan with `k` adjacent free seats also has `k - 1` of them. */
  lemma EnoughPlacesMonotone(plan: Grid, k: nat)
    requires k >= 1 && EnoughPlaces(plan, k)
    ensures EnoughPlaces(plan, k - 1)
  {
    EnoughPlacesIff(plan, k);
    EnoughPlacesIff(plan, k - 1);
    var r :| 0 <= r < |plan| && HasFreeRun(plan[r], k);
    var j :| RunAt(plan[r], j, k);
    assert RunAt(plan[r], j, k - 1);
  }

  /** An all-free plan with at least one row of `k` seats passes the test. */
  lemma FreshPlanHasPlaces(plan: Grid, k: nat)
    requires AllFree(plan) && |plan| > 0 && k <= |plan[0]|
    ensures EnoughPlaces(plan, k)
  {
    EnoughPlacesIff(plan, k);
    assert RunAt(plan[0], 0, k);
  }

  /** A reserved seat splits runs: the row free, free, reserved, free, free, free has 3 adjacent free seats but not 4. */
  lemma ExampleRow()
    ensures var row := [Free, Free, Reserved, Free, Free, Free];
            EnoughPlaces([row], 3) && !EnoughPlaces([row], 4)
  {
    var row := [Free, Free, Reserved, Free, Free, Free];
    EnoughPlacesIff([row], 3);
    EnoughPlacesIff([row], 4);
    assert RunAt(row, 3, 3);
    assert [row][0] == row;
  }
}

=== FILE: seating.dfy ===
/**
 * Seating plans and the seat-reservation engine.
 *
 * A hall's plan is a grid of cells. In the program a free cell holds its
 * column label (" 1", " 2", …, "30") and a reserved cell holds the text " .";
 * since no label is " .", a cell is exactly one of Free or Reserved here.
 * Seats are addressed as the operator types them: 1-based row, then 1-based
 * column.
 */
module Seating {
  import opened Wrappers

  datatype Cell = Free | Reserved

  type Grid = seq<seq<Cell>>

  /** A seat coordinate as typed by the operator (any integers). */
  datatype Seat = Seat(row: int, col: int)

  /** The plan size the hall constructor accepts: 0 < n <= 15 rows, 0 < m <= 30 seats. */
  const MaxRows := 15
  const MaxCols := 30

  predicate ValidDimensions(rows: int, cols: int) {
    0 < rows <= MaxRows && 0 < cols <= MaxCols
  }

  /** `g` has exactly `rows` rows of `cols` cells each. */
  predicate Shaped(g: Grid, rows: nat, cols: nat) {
    |g| == rows && forall r :: 0 <= r < |g| ==> |g[r]| == cols
  }

  predicate SameShape(g: Grid, h: Grid) {
    |g| == |h| && forall r :: 0 <= r < |g| ==> |g[r]| == |h[r]|
  }

  predicate AllFree(g: Grid) {
    forall r :: 0 <= r < |g| ==> forall c :: 0 <= c < |g[r]| ==> g[r][c] == Free
  }

  /** The seat lies inside the grid (both coordinates positive and in bounds). */
  predicate InGrid(g: Grid, s: Seat) {
    1 <= s.row <= |g| && 1 <= s.col <= |g[s.row - 1]|
  }

  function At(g: Grid, s: Seat): Cell
    requires InGrid(g, s)
  {
    g[s.row - 1][s.col - 1]
  }

  lemma SameShapeInGrid(g: Grid, h: Grid, s: Seat)
    requires SameShape(g, h)
    ensures InGrid(g, s) <==> InGrid(h, s)
  {
  }

  /** No element occurs twice. */
  predicate Distinct<T(==)>(xs: seq<T>) {
    forall i, j :: 0 <= i < j < |xs| ==> xs[i] != xs[j]
  }

  /** The plan built by the hall constructor: `rows` rows of `cols` free seats. */
  function MakePlan(rows: nat, cols: nat): (g: Grid)
    ensures Shaped(g, rows, cols)
    ensures AllFree(g)
  {
    seq(rows, _ => seq(cols, _ => Free))
  }

  /** Why a single seat could not be reserved. */
  datatype SeatError =
    | BadSeat   // non-positive coordinate or index outside the plan
    | BusySeat  // the seat is already reserved

  /**
   * One step of the seat-picking loop of the booking dialogue: a seat is
   * taken only if both coordinates are positive, it lies inside the plan and
   * it is not already reserved; then exactly that cell becomes reserved.
   */
  function Reserve(g: Grid, s: Seat): (r: Result<Grid, SeatError>)
    ensures r.Ok? <==> InGrid(g, s) && At(g, s) == Free
    ensures r == Err(BusySeat) <==> InGrid(g, s) && At(g, s) == Reserved
    ensures r == Err(BadSeat) <==> !InGrid(g, s)
    ensures r.Ok? ==> SameShape(g, r.value) && At(r.value, s) == Reserved
    ensures r.Ok? ==> forall t :: InGrid(g, t) && t != s ==> At(r.value, t) == At(g, t)
  {
    if !(s.row > 0 && s.col > 0) then Err(BadSeat)
    else if s.row - 1 >= |g| || s.col - 1 >= |g[s.row - 1]| then Err(BadSeat)
    else match g[s.row - 1][s.col - 1]
      case Reserved => Err(BusySeat)
      case Free => Ok(g[s.row - 1 := g[s.row - 1][s.col - 1 := Reserved]])
  }

  /** Once a seat is reserved, asking for it again is refused as busy. */
  lemma ReserveTwiceFails(g: Grid, s: Seat)
    requires Reserve(g, s).Ok?
    ensures Reserve(Reserve(g, s).value, s) == Err(BusySeat)
  {
  }

  /** Every seat reserved in `g` is still reserved in `h`, and the shape is kept. */
  ghost predicate Grows(g: Grid, h: Grid) {
    SameShape(g, h) && forall t :: InGrid(g, t) && At(g, t) == Reserved ==> InGrid(h, t) && At(h, t) == Reserved
  }

  /** `xs` is `ys` with some elements left out and the rest kept in order. */
  predicate Subsequence<T(==)>(xs: seq<T>, ys: seq<T>)
    decreases |ys|
  {
    || xs == []
    || (ys != [] && ((xs[0] == ys[0] && Subsequence(xs[1..], ys[1..])) || Subsequence(xs, ys[1..])))
  }

  /** The different seats among the operator's attempts that are free in `g`. */
  function FreeTyped(g: Grid, attempts: seq<Seat>): set<Seat> {
    set t | t in attempts && InGrid(g, t) && At(g, t) == Free
  }

  /** The seats chosen so far and the grid after they were reserved. */
  datatype Picked = Picked(grid: Grid, tickets: seq<Seat>)

  /**
   * The seat-choosing loop of the booking dialogue, with the operator's typed
   * coordinates given as `attempts`: each attempt is tried in turn, a refused
   * one is skipped (the dialogue asks again), and the loop stops as soon as
   * `need` seats have been reserved. Unused attempts are ignored.
   */
  function TakeSeats(g: Grid, need: nat, attempts: seq<Seat>): (p: Picked)
    ensures |p.tickets| <= need && |p.tickets| <= |attempts|
    ensures Distinct(p.tickets)
    ensures forall t :: t in p.tickets ==> t in attempts && InGrid(g, t) && At(g, t) == Free
    ensures SameShape(g, p.grid)
    ensures forall t :: t in p.tickets ==> InGrid(p.grid, t) && At(p.grid, t) == Reserved
    ensures forall t :: InGrid(g, t) && t !in p.tickets ==> At(p.grid, t) == At(g, t)
    decreases |attempts|
  {
    if need == 0 || |attempts| == 0 then Picked(g, [])
    else
      match Reserve(g, attempts[0])
      case Ok(g') =>
        var rest := TakeSeats(g', need - 1, attempts[1..]);
        Picked(rest.grid, [attempts[0]] + rest.tickets)
      case Err(_) => TakeSeats(g, need, attempts[1..])
  }

  /** When the first `need` typed seats are distinct and free, exactly those seats are granted, in order. */
  lemma {:induction false} TakeSeatsGrantsFreeSeats(g: Grid, need: nat, attempts: seq<Seat>)
    requires need <= |attempts| && Distinct(attempts[..need])
    requires forall i :: 0 <= i < need ==> InGrid(g, attempts[i]) && At(g, attempts[i]) == Free
    ensures TakeSeats(g, need, attempts).tickets == attempts[..need]
    decreases need
  {
    if need > 0 {
      var g' := Reserve(g, attempts[0]).value;
      var rest := attempts[1..];
      forall i | 0 <= i < need - 1
        ensures InGrid(g', rest[i]) && At(g', rest[i]) == Free
      {
        assert rest[i] == attempts[..need][i + 1];
        assert attempts[..need][0] != attempts[..need][i + 1];
        SameShapeInGrid(g, g', rest[i]);
      }
      assert rest[..need - 1] == attempts[..need][1..];
      TakeSeatsGrantsFreeSeats(g', need - 1, rest);
      assert attempts[..need] == [attempts[0]] + rest[..need - 1];
    }
  }

  /** The seats are granted in the order they were typed. */
  lemma {:induction false} TakeSeatsInOrder(g: Grid, need: nat, attempts: seq<Seat>)
    ensures Subsequence(TakeSeats(g, need, attempts).tickets, attempts)
    decreases |attempts|
  {
    if need > 0 && |attempts| > 0 {
      var more := attempts[1..];
      match Reserve(g, attempts[0])
      case Ok(g') =>
        var rest := TakeSeats(g', need - 1, more);
        TakeSeatsInOrder(g', need - 1, more);
        assert ([attempts[0]] + rest.tickets)[1..] == rest.tickets;
      case Err(_) =>
        TakeSeatsInOrder(g, need, more);
    }
  }

  /** Reserving one seat leaves every other free seat free. */
  lemma ReserveKeepsOthersFree(g: Grid, s: Seat, t: Seat)
    requires Reserve(g, s).Ok? && InGrid(g, t) && At(g, t) == Free && t != s
    ensures InGrid(Reserve(g, s).value, t) && At(Reserve(g, s).value, t) == Free
  {
    SameShapeInGrid(g, Reserve(g, s).value, t);
  }

  /**
   * A refused attempt never ends the loop: when fewer than `need` seats were
   * granted, every typed seat that was free has been granted.
   */
  lemma {:induction false} TakeSeatsRetries(g: Grid, need: nat, attempts: seq<Seat>, t: Seat)
    requires t in attempts && InGrid(g, t) && At(g, t) == Free
    requires |TakeSeats(g, need, attempts).tickets| < need
    ensures t in TakeSeats(g, need, attempts).tickets
    decreases |attempts|
  {
    assert need > 0 && |attempts| > 0;
    var a, more := attempts[0], attempts[1..];
    match Reserve(g, a)
    case Ok(g') =>
      var rest := TakeSeats(g', need - 1, more);
      assert TakeSeats(g, need, attempts).tickets == [a] + rest.tickets;
      if t != a {
        ReserveKeepsOthersFree(g, a, t);
        assert t in more;
        TakeSeatsRetries(g', need - 1, more, t);
        assert t in rest.tickets;
      }
    case Err(_) =>
      assert TakeSeats(g, need, attempts) == TakeSeats(g, need, more);
      assert t in more by {
        assert t != a;
      }
      TakeSeatsRetries(g, need, more, t);
  }

  lemma {:induction false} DistinctCard<T>(xs: seq<T>)
    requires Distinct(xs)
    ensures |set x | x in xs| == |xs|
  {
    if xs != [] {
      var rest := xs[1..];
      assert Distinct(rest) by {
        forall i, j | 0 <= i < j < |rest| ensures rest[i] != rest[j] {
          assert rest[i] == xs[i + 1] && rest[j] == xs[j + 1];
        }
      }
      DistinctCard(rest);
      assert (set x | x in xs) == {xs[0]} + (set x | x in rest);
      forall k | 0 <= k < |rest| ensures rest[k] != xs[0] {
        assert rest[k] == xs[k + 1];
      }
      assert xs[0] !in (set x | x in rest);
    }
  }

  lemma SubsetCard<T>(a: set<T>, b: set<T>)
    requires a <= b
    ensures |a| <= |b|
  {
    assert b == a + (b - a);
  }

  /**
   * How many seats the loop grants: `need` when at least that many different
   * free seats were typed, otherwise every one of them.
   */
  lemma TakeSeatsCount(g: Grid, need: nat, attempts: seq<Seat>)
    ensures var n := |FreeTyped(g, attempts)|;
            |TakeSeats(g, need, attempts).tickets| == if n < need then n else need
  {
    var p := TakeSeats(g, need, attempts);
    var f := FreeTyped(g, attempts);
    var granted := set t | t in p.tickets;
    DistinctCard(p.tickets);
    SubsetCard(granted, f);
    if |p.tickets| < need {
      forall t | t in f ensures t in granted {
        TakeSeatsRetries(g, need, attempts, t);
      }
      SubsetCard(f, granted);
    }
  }

  // ---------------------------------------------------------------------------
  // Which seats the loop grants, defined without the loop
  // ---------------------------------------------------------------------------

  /** `xs` with every occurrence of `x` removed. */
  function Drop(xs: seq<Seat>, x: Seat): (r: seq<Seat>)
    ensures forall t :: t in r <==> t in xs && t != x
  {
    if xs == [] then [] else (if xs[0] == x then [] else [xs[0]]) + Drop(xs[1..], x)
  }

  lemma DropCons(h: Seat, t: seq<Seat>, x: Seat)
    ensures Drop([h] + t, x) == (if h == x then [] else [h]) + Drop(t, x)
  {
    assert ([h] + t)[1..] == t;
  }

  lemma {:induction false} DropIdempotent(xs: seq<Seat>, x: Seat)
    ensures Drop(Drop(xs, x), x) == Drop(xs, x)
  {
    if xs != [] {
      var h, t := xs[0], xs[1..];
      DropIdempotent(t, x);
      if h == x {
        assert Drop(xs, x) == Drop(t, x);
      } else {
        assert Drop(xs, x) == [h] + Drop(t, x);
        DropCons(h, Drop(t, x), x);
      }
    }
  }

  lemma {:induction false} DropCommutes(xs: seq<Seat>, x: Seat, y: Seat)
    ensures Drop(Drop(xs, x), y) == Drop(Drop(xs, y), x)
  {
    if xs != [] {
      var h, t := xs[0], xs[1..];
      DropCommutes(t, x, y);
      if h == x || h == y {
        if h == x {
          assert Drop(xs, x) == Drop(t, x);
          if h != y {
            assert Drop(xs, y) == [h] + Drop(t, y);
            DropCons(h, Drop(t, y), x);
          } else {
            assert Drop(xs, y) == Drop(t, y);
          }
        } else {
          assert Drop(xs, y) == Drop(t, y);
          assert Drop(xs, x) == [h] + Drop(t, x);
          DropCons(h, Drop(t, x), y);
        }
      } else {
        assert Drop(xs, x) == [h] + Drop(t, x);
        assert Drop(xs, y) == [h] + Drop(t, y);
        DropCons(h, Drop(t, x), y);
        DropCons(h, Drop(t, y), x);
      }
    }
  }

  /**
   * The typed seats that are free in `g`, in the order typed, each kept at
   * its first occurrence only.
   */
  function FirstFree(g: Grid, attempts: seq<Seat>): (r: seq<Seat>)
    ensures forall t :: t in r <==> t in FreeTyped(g, attempts)
  {
    if attempts == [] then []
    else
      var a, rest := attempts[0], FirstFree(g, attempts[1..]);
      if InGrid(g, a) && At(g, a) == Free then [a] + Drop(rest, a) else rest
  }

  /** Reserving seat `x` takes exactly `x` out of the free seats the operator typed. */
  lemma {:induction false} FirstFreeAfterReserve(g: Grid, x: Seat, attempts: seq<Seat>)
    requires Reserve(g, x).Ok?
    ensures FirstFree(Reserve(g, x).value, attempts) == Drop(FirstFree(g, attempts), x)
  {
    if attempts != [] {
      var g' := Reserve(g, x).value;
      var a, more := attempts[0], attempts[1..];
      FirstFreeAfterReserve(g, x, more);
      var tail := FirstFree(g, more);
      SameShapeInGrid(g, g', a);
      if a == x {
        DropIdempotent(tail, x);
      } else if InGrid(g, a) && At(g, a) == Free {
        DropCommutes(tail, x, a);
        assert Drop([a] + Drop(tail, a), x) == [a] + Drop(Drop(tail, a), x) by {
          assert ([a] + Drop(tail, a))[1..] == Drop(tail, a);
        }
      }
    }
  }

  /**
   * The loop grants exactly the first `need` different free seats in the
   * order typed, or all of them when fewer were typed.
   */
  lemma {:induction false} TakeSeatsIsFirstFree(g: Grid, need: nat, attempts: seq<Seat>)
    ensures var ff := FirstFree(g, attempts);
            TakeSeats(g, need, attempts).tickets == ff[..if need < |ff| then need else |ff|]
    decreases |attempts|
  {
    if need > 0 && attempts != [] {
      var a, more := attempts[0], attempts[1..];
      match Reserve(g, a)
      case Ok(g') =>
        TakeSeatsIsFirstFree(g', need - 1, more);
        FirstFreeAfterReserve(g, a, more);
        var d := FirstFree(g', more);
        assert FirstFree(g, attempts) == [a] + d;
        var m := if need - 1 < |d| then need - 1 else |d|;
        assert ([a] + d)[..m + 1] == [a] + d[..m];
      case Err(_) =>
        TakeSeatsIsFirstFree(g, need, more);
    }
  }
}

=== FILE: sessions.dfy ===
/**
 * Sessions ("movies" in the program): a named showing with a start and end
 * time of day, its own copy of the hall's seating plan and its list of
 * orders. Covers the time-conflict predicate used when scheduling, the time
 * entry that orders the two typed times, and the ticket-buying dialogue.
 */
module Sessions {
  import opened Wrappers
  import opened Seating

  /** A time of day in whole minutes since midnight (00:00 … 23:59). */
  type Minute = m: int | 0 <= m < 24 * 60

  /** The most tickets one order may hold. */
  const MaxTickets := 5

  /** An order as recorded: customer name, the seats granted, and their count. */
  datatype Order = Order(customer: string, tickets: seq<Seat>, count: int)

  datatype Session = Session(name: string, start: Minute, end: Minute, grid: Grid, orders: seq<Order>)

  /**
   * A new session of `plan`'s hall: the two typed times are sorted, so a
   * reversed pair is swapped rather than refused and equal times are kept.
   * The session's grid is its own copy of the plan and it has no orders yet.
   */
  function NewSession(name: string, plan: Grid, t1: Minute, t2: Minute): (s: Session)
    ensures s.start <= s.end
    ensures (s.start, s.end) == (t1, t2) || (s.start, s.end) == (t2, t1)
    ensures s.name == name && s.grid == plan && s.orders == []
  {
    if t1 <= t2 then Session(name, t1, t2, plan, []) else Session(name, t2, t1, plan, [])
  }

  // ---------------------------------------------------------------------------
  // Scheduling: the conflict test between an existing session and a candidate
  // ---------------------------------------------------------------------------

  /**
   * The program's equality operator on sessions, which it uses as its
   * overlap test: the hall compares every existing film with the candidate as
   * `existing == candidate`, so `existing` is the left operand.
   */
  predicate Conflicts(existing: Session, candidate: Session) {
    || candidate.start <= existing.start < candidate.end
    || candidate.start < existing.end < candidate.end
    || (existing.start < candidate.start && existing.end > candidate.end)
    || (existing.start > candidate.start && existing.end < candidate.end)
  }

  /**
   * The intended overlap test: the half-open intervals [start, end) share a
   * minute, that is, the later start comes before the earlier end. Symmetric;
   * touching sessions never overlap, and neither does a zero-length one.
   */
  predicate Overlaps(a: Session, b: Session) {
    a.start < a.end && b.start < b.end && a.start < b.end && b.start < a.end
  }

  /** `t` is a minute during the session. */
  predicate During(t: int, s: Session) {
    s.start <= t < s.end
  }

  /**
   * Sessions that end no later than the other starts never conflict,
   * whichever is the existing one, unless the earlier one has zero length
   * and sits exactly at the other's start (see ZeroLengthBlocksTouching).
   */
  lemma TouchingNeverConflicts(a: Session, b: Session)
    requires a.start <= a.end <= b.start <= b.end
    requires a.start < a.end || a.end < b.start
    ensures !Conflicts(a, b) && !Conflicts(b, a)
  {
  }

  /** A zero-length session touching the start of another still blocks it. */
  lemma ZeroLengthBlocksTouching(a: Session, b: Session)
    requires a.start == a.end == b.start < b.end
    ensures Conflicts(a, b) && !Overlaps(a, b)
  {
  }

  /** A session conflicts with itself exactly when it is not of zero length. */
  lemma SelfConflict(a: Session)
    requires a.start <= a.end
    ensures Conflicts(a, a) <==> a.start < a.end
  {
  }

  /** Whenever the existing session starts during the candidate, they conflict. */
  lemma StartsDuringCandidate(existing: Session, candidate: Session)
    requires During(existing.start, candidate)
    ensures Conflicts(existing, candidate)
  {
  }

  /**
   * The two operand orders disagree when the sessions end together: an
   * existing [s1, e] does not block a candidate [s2, e] with s1 < s2 < e, but
   * an existing [s2, e] does block a candidate [s1, e].
   */
  lemma SharedEndAsymmetry(a: Session, b: Session)
    requires a.start < b.start < b.end && a.end == b.end
    ensures !Conflicts(a, b) && Conflicts(b, a) && Overlaps(a, b)
  {
  }

  /**
   * How the program's test relates to real overlap for sessions of non-zero
   * length: it agrees with `Overlaps` except that it misses an existing
   * session that starts earlier and ends at the same minute as the candidate.
   */
  lemma ConflictsVersusOverlaps(existing: Session, candidate: Session)
    requires existing.start < existing.end && candidate.start < candidate.end
    ensures Conflicts(existing, candidate) <==>
              Overlaps(existing, candidate) && !(existing.start < candidate.start && existing.end == candidate.end)
  {
  }

  /** The intended test does not depend on which session is the existing one. */
  lemma OverlapsSymmetric(a: Session, b: Session)
    ensures Overlaps(a, b) <==> Overlaps(b, a)
  {
  }

  /** Two sessions overlap exactly when some minute lies during both. */
  lemma OverlapsIffSharedMinute(a: Session, b: Session)
    ensures Overlaps(a, b) <==> exists t :: During(t, a) && During(t, b)
  {
    if Overlaps(a, b) {
      var t := if a.start < b.start then b.start else a.start;
      assert During(t, a) && During(t, b);
    }
  }

  // ---------------------------------------------------------------------------
  // Booking
  // ---------------------------------------------------------------------------

  /** Every seat ever granted to the session's orders, in order. */
  function AllTickets(orders: seq<Order>): (ts: seq<Seat>)
    ensures forall i, t :: 0 <= i < |orders| && t in orders[i].tickets ==> t in ts
    ensures forall t :: t in ts ==> exists i :: 0 <= i < |orders| && t in orders[i].tickets
  {
    if orders == [] then []
    else AllTickets(orders[..|orders| - 1]) + orders[|orders| - 1].tickets
  }

  predicate WellFormedOrder(o: Order) {
    o.count == |o.tickets| && 1 <= o.count <= MaxTickets
  }

  /**
   * The session's bookkeeping is consistent: every order is well formed, no
   * seat was granted twice, and a seat of the plan is reserved exactly when
   * some order holds it.
   */
  ghost predicate Consistent(s: Session) {
    && (forall i :: 0 <= i < |s.orders| ==> WellFormedOrder(s.orders[i]))
    && Distinct(AllTickets(s.orders))
    && (forall t :: t in AllTickets(s.orders) ==> InGrid(s.grid, t))
    && (forall t :: InGrid(s.grid, t) ==> (At(s.grid, t) == Reserved <==> t in AllTickets(s.orders)))
  }

  datatype BuyError =
    | BadCount        // the number of tickets is not one of 1 … 5
    | InputExhausted  // the operator's input ended before every seat was chosen

  /**
   * The ticket-buying dialogue for one session: the count must be 1 … 5,
   * then seats are taken one by one from the operator's attempts (refused
   * attempts are asked again), and only when all `count` seats are reserved
   * is the order (customer, seats, number of seats) appended. The input runs
   * out exactly when fewer than `count` different free seats were typed.
   */
  function BuyTickets(s: Session, count: int, attempts: seq<Seat>, customer: string): (r: Result<Session, BuyError>)
    ensures !(1 <= count <= MaxTickets) ==> r == Err(BadCount)
    ensures 1 <= count <= MaxTickets && |attempts| < count ==> r == Err(InputExhausted)
    ensures r == Err(InputExhausted) <==> 1 <= count <= MaxTickets && |FreeTyped(s.grid, attempts)| < count
    ensures r.Ok? <==> 1 <= count <= MaxTickets && count <= |FreeTyped(s.grid, attempts)|
    ensures r.Ok? ==>
              && r.value.name == s.name && r.value.start == s.start && r.value.end == s.end
              && |r.value.orders| == |s.orders| + 1
              && r.value.orders[..|s.orders|] == s.orders
    ensures r.Ok? ==>
              var o := r.value.orders[|s.orders|];
              && o.customer == customer && WellFormedOrder(o) && o.count == count
              && Distinct(o.tickets)
              && (forall t :: t in o.tickets ==> InGrid(s.grid, t) && At(s.grid, t) == Free)
              && (forall t :: t in o.tickets ==> InGrid(r.value.grid, t) && At(r.value.grid, t) == Reserved)
              && SameShape(s.grid, r.value.grid)
              && (forall t :: InGrid(s.grid, t) && t !in o.tickets ==> At(r.value.grid, t) == At(s.grid, t))
    ensures r.Ok? ==>
              && count <= |FirstFree(s.grid, attempts)|
              && r.value.orders[|s.orders|].tickets == FirstFree(s.grid, attempts)[..count]
  {
    if !(1 <= count <= MaxTickets) then Err(BadCount)
    else
      TakeSeatsCount(s.grid, count, attempts);
      TakeSeatsIsFirstFree(s.grid, count, attempts);
      var p := TakeSeats(s.grid, count, attempts);
      if |p.tickets| < count then Err(InputExhausted)
      else Ok(s.(grid := p.grid, orders := s.orders + [Order(customer, p.tickets, |p.tickets|)]))
  }

  /** Typing 1 … 5 distinct free seats buys exactly those seats. */
  lemma BuyFreeSeats(s: Session, count: int, attempts: seq<Seat>, customer: string)
    requires 1 <= count <= MaxTickets && count <= |attempts| && Distinct(attempts[..count])
    requires forall i :: 0 <= i < count ==> InGrid(s.grid, attempts[i]) && At(s.grid, attempts[i]) == Free
    ensures BuyTickets(s, count, attempts, customer).Ok?
    ensures BuyTickets(s, count, attempts, customer).value.orders
              == s.orders + [Order(customer, attempts[..count], count)]
  {
    TakeSeatsGrantsFreeSeats(s.grid, count, attempts);
  }

  /**
   * A refused seat is asked again rather than ending the order: a busy seat
   * and an out-of-plan seat are skipped, and the free seat typed after them
   * is bought.
   */
  lemma RetryAfterRefusal()
    ensures var s := Session("asdf", 720, 780, [[Reserved, Free]], [Order("Nikita", [Seat(1, 1)], 1)]);
            BuyTickets(s, 1, [Seat(1, 1), Seat(0, 5), Seat(1, 2)], "Olesya")
              == Ok(s.(grid := [[Reserved, Reserved]], orders := s.orders + [Order("Olesya", [Seat(1, 2)], 1)]))
  {
    var g: Grid := [[Reserved, Free]];
    assert Reserve(g, Seat(1, 1)) == Err(BusySeat);
    assert Reserve(g, Seat(0, 5)) == Err(BadSeat);
    var g': Grid := [[Reserved, Reserved]];
    assert g[0][1 := Reserved] == g'[0];
    assert g[0 := g'[0]] == g';
    assert Reserve(g, Seat(1, 2)) == Ok(g');
    var typed := [Seat(1, 1), Seat(0, 5), Seat(1, 2)];
    assert typed[1..][1..] == [Seat(1, 2)];
    assert TakeSeats(g', 0, []) == Picked(g', []);
    assert TakeSeats(g, 1, [Seat(1, 2)]) == Picked(g', [Seat(1, 2)]);
    assert TakeSeats(g, 1, typed) == Picked(g', [Seat(1, 2)]);
  }

  /** A new session of an all-free plan is consistent. */
  lemma NewSessionConsistent(name: string, plan: Grid, t1: Minute, t2: Minute)
    requires AllFree(plan)
    ensures Consistent(NewSession(name, plan, t1, t2))
  {
  }

  lemma DistinctConcat<T>(xs: seq<T>, ys: seq<T>)
    requires Distinct(xs) && Distinct(ys)
    requires forall t :: t in ys ==> t !in xs
    ensures Distinct(xs + ys)
  {
    forall i, j | 0 <= i < j < |xs + ys|
      ensures (xs + ys)[i] != (xs + ys)[j]
    {
      if j < |xs| {
        assert (xs + ys)[i] == xs[i] && (xs + ys)[j] == xs[j];
      } else if i < |xs| {
        assert (xs + ys)[i] == xs[i] && (xs + ys)[j] == ys[j - |xs|];
        assert ys[j - |xs|] in ys && xs[i] in xs;
      } else {
        assert (xs + ys)[i] == ys[i - |xs|] && (xs + ys)[j] == ys[j - |xs|];
      }
    }
  }

  /**
   * Buying keeps the session consistent: the grid never holds a reservation
   * that is not in exactly one order, and every seat of every order is
   * reserved.
   */
  lemma BuyPreservesConsistent(s: Session, count: int, attempts: seq<Seat>, customer: string)
    requires Consistent(s)
    requires BuyTickets(s, count, attempts, customer).Ok?
    ensures Consistent(BuyTickets(s, count, attempts, customer).value)
  {
    var s' := BuyTickets(s, count, attempts, customer).value;
    var o := s'.orders[|s.orders|];
    assert s'.orders == s.orders + [o];
    assert s'.orders[..|s'.orders| - 1] == s.orders;
    assert AllTickets(s'.orders) == AllTickets(s.orders) + o.tickets;
    forall t | t in o.tickets
      ensures t !in AllTickets(s.orders)
    {
    }
    DistinctConcat(AllTickets(s.orders), o.tickets);
    forall t | t in AllTickets(s'.orders)
      ensures InGrid(s'.grid, t)
    {
      SameShapeInGrid(s.grid, s'.grid, t);
    }
    forall t | InGrid(s'.grid, t)
      ensures At(s'.grid, t) == Reserved <==> t in AllTickets(s'.orders)
    {
      SameShapeInGrid(s.grid, s'.grid, t);
    }
  }

  /** Buying never frees a seat. */
  lemma BuyOnlyReserves(s: Session, count: int, attempts: seq<Seat>, customer: string)
    requires BuyTickets(s, count, attempts, customer).Ok?
    ensures Grows(s.grid, BuyTickets(s, count, attempts, customer).value.grid)
  {
    var s' := BuyTickets(s, count, attempts, customer).value;
    forall t | InGrid(s.grid, t) && At(s.grid, t) == Reserved
      ensures InGrid(s'.grid, t) && At(s'.grid, t) == Reserved
    {
      SameShapeInGrid(s.grid, s'.grid, t);
    }
  }
}

=== FILE: venues.dfy ===
/**
 * Cinemas and halls: the static hierarchy, hall numbering, the scheduling of
 * sessions into a hall, the lookup of a hall's sessions by name, and booking
 * inside one session of a hall.
 */
module Venues {
  import opened Wrappers
  import opened Seating
  import opened Sessions

  /** A hall: its number within the cinema, its seating plan, and its sessions in the order added. */
  datatype Hall = Hall(num: int, plan: Grid, movies: seq<Session>)

  /** A cinema: its name and its halls in the order added. */
  datatype Cinema = Cinema(name: string, halls: seq<Hall>)

  // ---------------------------------------------------------------------------
  // Hall registry
  // ---------------------------------------------------------------------------

  /** Halls are numbered 1, 2, … by position. */
  predicate WellNumbered(c: Cinema) {
    forall i :: 0 <= i < |c.halls| ==> c.halls[i].num == i + 1
  }

  datatype HallError = InvalidDimensions

  /**
   * Creating a hall and adding it to its cinema: the plan must have 1 … 15
   * rows of 1 … 30 seats (the console asks again otherwise); the hall gets
   * the number of halls already present plus one, and is appended.
   */
  function AddHall(c: Cinema, rows: int, cols: int): (r: Result<Cinema, HallError>)
    ensures r.Ok? <==> ValidDimensions(rows, cols)
    ensures r.Ok? ==>
              && r.value.name == c.name
              && |r.value.halls| == |c.halls| + 1
              && r.value.halls[..|c.halls|] == c.halls
    ensures r.Ok? ==>
              var h := r.value.halls[|c.halls|];
              h.num == |c.halls| + 1 && Shaped(h.plan, rows, cols) && AllFree(h.plan) && h.movies == []
    ensures r.Ok? && WellNumbered(c) ==> WellNumbered(r.value)
  {
    if !ValidDimensions(rows, cols) then Err(InvalidDimensions)
    else Ok(c.(halls := c.halls + [Hall(|c.halls| + 1, MakePlan(rows, cols), [])]))
  }

  /**
   * Hall lookup by the number the user typed: exactly the numbers 1 … number
   * of halls are accepted, giving the hall's position.
   */
  function CheckHall(c: Cinema, number: int): (r: Option<nat>)
    ensures r.Some? <==> 1 <= number <= |c.halls|
    ensures r.Some? ==> r.value < |c.halls| && r.value + 1 == number
    ensures r.Some? && WellNumbered(c) ==> c.halls[r.value].num == number
  {
    if number > 0 && number - 1 < |c.halls| then Some(number - 1) else None
  }

  // ---------------------------------------------------------------------------
  // Scheduling
  // ---------------------------------------------------------------------------

  /** Which clash test a hall applies: the program's, or the intended overlap test. */
  datatype Rule = AsWritten | Intended

  predicate Clash(rule: Rule, existing: Session, candidate: Session) {
    match rule
    case AsWritten => Conflicts(existing, candidate)
    case Intended => Overlaps(existing, candidate)
  }

  /** The position of the first existing session that clashes with the candidate. */
  function FirstClash(rule: Rule, movies: seq<Session>, m: Session): (r: Option<nat>)
    ensures r.None? <==> forall i :: 0 <= i < |movies| ==> !Clash(rule, movies[i], m)
    ensures r.Some? ==>
              && r.value < |movies|
              && Clash(rule, movies[r.value], m)
              && forall i :: 0 <= i < r.value ==> !Clash(rule, movies[i], m)
  {
    if movies == [] then None
    else if Clash(rule, movies[0], m) then Some(0)
    else match FirstClash(rule, movies[1..], m)
      case None => None
      case Some(i) => Some(i + 1)
  }

  /**
   * Adding a session to a hall: the existing sessions are scanned in order
   * and the first that clashes is reported, leaving the hall unchanged;
   * otherwise the session is appended. With `AsWritten` this is the program's
   * behaviour.
   */
  function AddMovie(rule: Rule, h: Hall, m: Session): (r: Result<Hall, Session>)
    ensures r.Err? <==> exists i :: 0 <= i < |h.movies| && Clash(rule, h.movies[i], m)
    ensures r.Err? ==>
              exists i :: && 0 <= i < |h.movies| && r.error == h.movies[i]
                          && Clash(rule, h.movies[i], m)
                          && forall j :: 0 <= j < i ==> !Clash(rule, h.movies[j], m)
    ensures r.Ok? ==> r.value == h.(movies := h.movies + [m])
  {
    match FirstClash(rule, h.movies, m)
    case Some(i) => Err(h.movies[i])
    case None => Ok(h.(movies := h.movies + [m]))
  }

  /** What the program's scan guarantees: no session clashes with any session that was there before it. */
  ghost predicate Scheduled(h: Hall) {
    forall i, j :: 0 <= i < j < |h.movies| ==> !Conflicts(h.movies[i], h.movies[j])
  }

  /** What scheduling is meant to guarantee: no two sessions of the hall share a minute. */
  ghost predicate Disjoint(h: Hall) {
    forall i, j :: 0 <= i < |h.movies| && 0 <= j < |h.movies| && i != j ==> !Overlaps(h.movies[i], h.movies[j])
  }

  lemma AddMovieKeepsScheduled(h: Hall, m: Session)
    requires Scheduled(h) && AddMovie(AsWritten, h, m).Ok?
    ensures Scheduled(AddMovie(AsWritten, h, m).value)
  {
    var h' := AddMovie(AsWritten, h, m).value;
    forall i, j | 0 <= i < j < |h'.movies|
      ensures !Conflicts(h'.movies[i], h'.movies[j])
    {
      if j == |h.movies| {
        assert !Clash(AsWritten, h.movies[i], m);
      }
    }
  }

  /** With the intended test, adding a session keeps every pair of sessions in the hall disjoint. */
  lemma AddMovieKeepsDisjoint(h: Hall, m: Session)
    requires Disjoint(h) && AddMovie(Intended, h, m).Ok?
    ensures Disjoint(AddMovie(Intended, h, m).value)
  {
    var h' := AddMovie(Intended, h, m).value;
    forall i, j | 0 <= i < |h'.movies| && 0 <= j < |h'.movies| && i != j
      ensures !Overlaps(h'.movies[i], h'.movies[j])
    {
      if j == |h.movies| {
        assert !Clash(Intended, h.movies[i], m);
      } else if i == |h.movies| {
        assert !Clash(Intended, h.movies[j], m);
        OverlapsSymmetric(h.movies[j], m);
      }
    }
  }

  /**
   * The program's test lets an overlapping session in: with 11:00–13:00
   * scheduled, 12:00–13:00 is accepted and the hall then holds two sessions
   * that share the hour 12:00–13:00; the intended test refuses it.
   */
  lemma AsWrittenAdmitsOverlap(plan: Grid)
    ensures var h := Hall(1, plan, [NewSession("A", plan, 660, 780)]);
            var m := NewSession("B", plan, 720, 780);
            && AddMovie(AsWritten, h, m).Ok?
            && !Disjoint(AddMovie(AsWritten, h, m).value)
            && AddMovie(Intended, h, m) == Err(h.movies[0])
  {
    var h := Hall(1, plan, [NewSession("A", plan, 660, 780)]);
    var m := NewSession("B", plan, 720, 780);
    assert !Clash(AsWritten, h.movies[0], m);
    var h' := AddMovie(AsWritten, h, m).value;
    assert Overlaps(h'.movies[0], h'.movies[1]);
  }

  /**
   * A session as the program creates it for a hall (its own copy of the
   * hall's plan, the typed times sorted), then offered to the hall.
   */
  function ScheduleMovie(rule: Rule, h: Hall, name: string, t1: Minute, t2: Minute): (r: Result<Hall, Session>)
    ensures r.Err? <==> exists i :: 0 <= i < |h.movies| && Clash(rule, h.movies[i], NewSession(name, h.plan, t1, t2))
    ensures r.Err? ==>
              exists i :: && 0 <= i < |h.movies| && r.error == h.movies[i]
                          && Clash(rule, h.movies[i], NewSession(name, h.plan, t1, t2))
                          && forall j :: 0 <= j < i ==> !Clash(rule, h.movies[j], NewSession(name, h.plan, t1, t2))
    ensures r.Ok? ==>
              && r.value.num == h.num && r.value.plan == h.plan
              && |r.value.movies| == |h.movies| + 1
              && r.value.movies[..|h.movies|] == h.movies
    ensures r.Ok? ==>
              var s := r.value.movies[|h.movies|];
              && s.name == name && s.start <= s.end && s.grid == h.plan && s.orders == []
              && {s.start, s.end} == {t1, t2}
  {
    AddMovie(rule, h, NewSession(name, h.plan, t1, t2))
  }

  // ---------------------------------------------------------------------------
  // Lookup by name
  // ---------------------------------------------------------------------------

  /** The positions of the sessions called `name`, in increasing order. */
  function MatchingIndices(movies: seq<Session>, name: string): (ix: seq<nat>)
    ensures forall k :: 0 <= k < |ix| ==> ix[k] < |movies| && movies[ix[k]].name == name
    ensures forall i :: 0 <= i < |movies| && movies[i].name == name ==> i in ix
    ensures forall k, l :: 0 <= k < l < |ix| ==> ix[k] < ix[l]
  {
    if movies == [] then []
    else
      var pre := MatchingIndices(movies[..|movies| - 1], name);
      if movies[|movies| - 1].name == name then pre + [|movies| - 1] else pre
  }

  /**
   * The sessions of a hall called `name`, in the hall's order, or None when
   * there is none; choosing among several is left to the caller.
   */
  function GetMovie(h: Hall, name: string): (r: Option<seq<Session>>)
    ensures r.None? <==> forall i :: 0 <= i < |h.movies| ==> h.movies[i].name != name
    ensures r.Some? ==>
              var ix := MatchingIndices(h.movies, name);
              |r.value| == |ix| > 0 && forall k :: 0 <= k < |ix| ==> r.value[k] == h.movies[ix[k]]
    ensures r.Some? ==> forall s :: s in r.value ==> s in h.movies && s.name == name
  {
    var ix := MatchingIndices(h.movies, name);
    if ix == [] then None
    else
      assert h.movies[ix[0]].name == name;
      Some(seq(|ix|, k requires 0 <= k < |ix| => h.movies[ix[k]]))
  }

  // ---------------------------------------------------------------------------
  // Booking within a hall
  // ---------------------------------------------------------------------------

  /**
   * Buying tickets for the hall's session at position `k`. Only that
   * session changes: the hall's plan and every other session (each owns its
   * own grid) stay as they were.
   */
  function BuyInHall(h: Hall, k: nat, count: int, attempts: seq<Seat>, customer: string): (r: Result<Hall, BuyError>)
    requires k < |h.movies|
    ensures r.Ok? <==> BuyTickets(h.movies[k], count, attempts, customer).Ok?
    ensures r.Ok? ==>
              && r.value.num == h.num && r.value.plan == h.plan
              && |r.value.movies| == |h.movies|
              && r.value.movies[k] == BuyTickets(h.movies[k], count, attempts, customer).value
              && forall i :: 0 <= i < |h.movies| && i != k ==> r.value.movies[i] == h.movies[i]
  {
    match BuyTickets(h.movies[k], count, attempts, customer)
    case Ok(s) => Ok(h.(movies := h.movies[k := s]))
    case Err(e) => Err(e)
  }

  /**
   * A hall in good order: its plan is a valid all-free grid, and every
   * session has a grid of the plan's shape whose bookkeeping is consistent.
   */
  ghost predicate HallOk(h: Hall) {
    && |h.plan| > 0 && ValidDimensions(|h.plan|, |h.plan[0]|) && Shaped(h.plan, |h.plan|, |h.plan[0]|)
    && AllFree(h.plan)
    && forall i :: 0 <= i < |h.movies| ==> SameShape(h.plan, h.movies[i].grid) && Consistent(h.movies[i])
  }

  lemma AddHallOk(c: Cinema, rows: int, cols: int)
    requires AddHall(c, rows, cols).Ok?
    ensures HallOk(AddHall(c, rows, cols).value.halls[|c.halls|])
  {
  }

  lemma ScheduleMovieOk(rule: Rule, h: Hall, name: string, t1: Minute, t2: Minute)
    requires HallOk(h) && ScheduleMovie(rule, h, name, t1, t2).Ok?
    ensures HallOk(ScheduleMovie(rule, h, name, t1, t2).value)
  {
    NewSessionConsistent(name, h.plan, t1, t2);
  }

  /** Booking keeps the hall in good order; in particular its plan stays all free. */
  lemma BuyInHallOk(h: Hall, k: nat, count: int, attempts: seq<Seat>, customer: string)
    requires HallOk(h) && k < |h.movies| && BuyInHall(h, k, count, attempts, customer).Ok?
    ensures HallOk(BuyInHall(h, k, count, attempts, customer).value)
  {
    BuyPreservesConsistent(h.movies[k], count, attempts, customer);
  }

  /**
   * A scenario modelled on the sample session kept at the end of the
   * program (its first hall, with the order of steps simplified): in a
   * 4 x 4 hall a session 12:00–13:00 and a back-to-back one 13:00–14:00 are
   * both accepted; four seats of row 1 are bought for the first in one order
   * of count 4, after which seat (1, 1) of that session is refused as busy
   * while the same seat of the second session is still free.
   */
  lemma Walkthrough()
    ensures
      var h0 := Hall(1, MakePlan(4, 4), []);
      var r1 := ScheduleMovie(AsWritten, h0, "asdf", 720, 780);
      && r1.Ok?
      && var r2 := ScheduleMovie(AsWritten, r1.value, "king", 780, 840);
      && r2.Ok?
      && var r3 := BuyInHall(r2.value, 0, 4, [Seat(1, 1), Seat(1, 2), Seat(1, 3), Seat(1, 4)], "Olesya");
      && r3.Ok?
      && r3.value.movies[0].orders == [Order("Olesya", [Seat(1, 1), Seat(1, 2), Seat(1, 3), Seat(1, 4)], 4)]
      && Reserve(r3.value.movies[0].grid, Seat(1, 1)) == Err(BusySeat)
      && Reserve(r3.value.movies[1].grid, Seat(1, 1)).Ok?
  {
    var plan := MakePlan(4, 4);
    var h0 := Hall(1, plan, []);
    var h1 := ScheduleMovie(AsWritten, h0, "asdf", 720, 780).value;
    var s2 := NewSession("king", plan, 780, 840);
    TouchingNeverConflicts(h1.movies[0], s2);
    assert !Clash(AsWritten, h1.movies[0], s2);
    var h2 := ScheduleMovie(AsWritten, h1, "king", 780, 840).value;
    var seats := [Seat(1, 1), Seat(1, 2), Seat(1, 3), Seat(1, 4)];
    assert seats[..4] == seats;
    BuyFreeSeats(h2.movies[0], 4, seats, "Olesya");
    var h3 := BuyInHall(h2, 0, 4, seats, "Olesya").value;
    assert Seat(1, 1) in h3.movies[0].orders[0].tickets;
  }
}

=== FILE: wrappers.dfy ===
/** Failure-carrying result types shared by every module of the model. */
module Wrappers {

  /** A value that may be absent; the source's `None` return. */
  datatype Option<+T> = None | Some(value: T)

  /** The outcome of an operation that may be refused with an error value. */
  datatype Result<+T, +E> = Ok(value: T) | Err(error: E)
}
